=== FILE: README.md ===
# Room dashboard store, modelled in Dafny

This project models the client-side state store of a room-based collaboration
dashboard (`src/store.ts`) and the folder breadcrumb trail of its files tab
(`src/components/dashboard/FilesTab.tsx`).

The store is one record, `StoreState.AppState`. It holds:

- the per-tab collections: feed, payments, files, members, meetings, messages;
- the shared `tab_loading` flag and the `reached_end` flag;
- the selected room and the room to preview;
- the user and the user's room list.

The synchronous setters are pure functions on that record:

- room selection (`SelectRoom`, `LoadRoomData`);
- the like toggle (`ToggleLike`).

Every asynchronous action reads the state once, awaits the server, and then
writes. Each one is modelled as two functions:

- `BeginX(state, args)` returns the state after the synchronous prefix. It also
  returns a `Launch`: the guard returned (`Skipped`), a `Request` was sent
  (`Sent`), or the action dereferenced `selectedRoom!.id` with no room selected
  and rejected (`NoRoomSelected`).
- `FinishX(current, snapshot, page)` applies the server's answer to the current
  state. `snapshot` is the state the action read at its start. The page is any
  sequence of records.

Writing the actions this way exposes three behaviours of the code:

- a reset fetch's clear is overwritten, because the page is added to the
  pre-call snapshot;
- payments never loads a page without `reset`;
- the files refresh inside `createFolder` returns at its own guard.

Modules:

- `Wrappers`: the optional value.
- `SeqOps`: `find`, `findIndex` and `reverse`.
- `Entities`: the records.
- `StoreState`: the state and its setters.
- `StoreActions`: the Begin/Finish pairs.
- `StoreProperties`: properties that span several calls.
- `FolderPath`: the breadcrumb trail.
- `Counterexamples` and `Corrected`: the findings below.

Behaviours of the code that the model keeps:

- The feed, members and payments guards return while `reached_end` holds, even
  when `reset` is asked.
- A reset does not clear the collection the page is added to.
- Payments sends no cursor, ever.
- `loadRoomData` sets the preview only when `page_loading` is false.
- `createFolder`'s refresh passes no `reset`, and its guard stops it.

An optional `reset` that is absent is modelled as `false`.

## Model

| member | source | states |
|---|---|---|
| SeqOps.FirstIndex | src/store.ts:94 | the index found is the first whose element matches; None exactly when no element matches |
| SeqOps.Find | src/store.ts:74 | the element found is at the first matching index; None exactly when no element matches |
| SeqOps.FirstId | src/store.ts:156 | the id of the first element (the oldest loaded message), None exactly when the sequence is empty |
| SeqOps.LastId | src/store.ts:199 | the id of the last element (the last loaded member or payment split), None exactly when the sequence is empty |
| SeqOps.Reverse | src/store.ts:158 | the result has the same length and element i is element n-1-i of the input |
| SeqOps.ReverseReverse | src/store.ts:158 | reversing twice gives back the original sequence |
| Entities.RoomIdOf | src/store.ts:156 | `selectedRoom?.id`: the room's id when a room is selected, None exactly when none is |
| StoreState.SelectRoom | src/store.ts:72-82 | all six per-tab collections are empty and reached_end is false; the selected room is the first of the user's rooms with that id, and none exactly when no room has it; user_rooms, user, tab_loading, page_loading and the preview are untouched |
| StoreState.LoadRoomData | src/store.ts:111-116 | the selected room is the first of the user's rooms with that id, and none exactly when no room has it; the preview becomes the room id exactly when the user has no room with that id and the page is not loading, and otherwise keeps its old value |
| StoreState.FeedIndex | src/store.ts:94-95 | the index found holds the first feed item with the id; None exactly when no item has it |
| StoreState.Toggled | src/store.ts:97-101 | the id stays, user_liked flips, and likes goes up by one when the item becomes liked and down by one when it becomes unliked |
| StoreState.ToggleLike | src/store.ts:92-103 | the first item with the id is toggled; every other item and the feed length stay; an absent id leaves the state unchanged; no other field changes |
| StoreState.ToggleLikeTwice | src/store.ts:92-103 | toggling the same id twice gives back the original state |
| StoreState.ToggleLikeKeepsConsistency | src/store.ts:99-100 | if every counter is non-negative and at least one when liked, a toggle keeps that so |
| StoreActions.MarkLoading | src/store.ts:122 | `set({ tab_loading: true })`: loading is set and no other field changes |
| StoreActions.BeginFeed | src/store.ts:118-123 | nothing is sent and nothing changes exactly when tab_loading or reached_end holds, reset or not; otherwise loading is set, the feed is emptied on reset, and the request is for room 43 with take 10 |
| StoreActions.FinishFeed | src/store.ts:124-127 | the feed is the snapshot's feed followed by the page; loading is over; reached_end holds exactly when the page is empty; nothing else changes |
| StoreActions.BeginPayments | src/store.ts:130-139 | nothing is sent and nothing changes exactly when tab_loading, reached_end or a missing reset holds; a call that goes ahead clears the payments, sets loading and sends no cursor; with no room selected it rejects after setting loading |
| StoreActions.FinishPayments | src/store.ts:140-142 | the payments are the snapshot's followed by the page; loading over; reached_end exactly when the page is empty |
| StoreActions.BeginChat | src/store.ts:145-157 | only tab_loading stops it; a reset empties the messages and clears reached_end; the cursor is the first message id of the state read before the reset |
| StoreActions.FinishChat | src/store.ts:158-160 | the messages are the page in reverse order followed by the snapshot's messages; loading over; reached_end exactly when the page is empty |
| StoreActions.BeginSendMessage | src/store.ts:163-170 | the state is unchanged and one post of the text to the selected room is sent |
| StoreActions.FinishSendMessage | src/store.ts:171 | the messages are the snapshot's with exactly the confirmed message added at the end; nothing else changes |
| StoreActions.BeginFiles | src/store.ts:174-189 | only tab_loading stops it; a reset empties the files; the request's skip is the number of files read before the reset, take 50; with no room selected it rejects after setting loading |
| StoreActions.FinishFiles | src/store.ts:190-191 | the files are the snapshot's followed by the page; loading over; reached_end is not written |
| StoreActions.BeginMembers | src/store.ts:194-199 | guarded like the feed; the cursor is the last loaded member's id, take 30 |
| StoreActions.FinishMembers | src/store.ts:200-202 | the members are the snapshot's followed by the page; loading over; reached_end exactly when the page is empty |
| StoreActions.BeginMeetings | src/store.ts:205-209 | never skips: the meetings are emptied and loading set on every call |
| StoreActions.FinishMeetings | src/store.ts:210-211 | the meetings are replaced by the page; loading over |
| StoreActions.BeginCreateFolder | src/store.ts:214-227 | loading is set; a FOLDER post under the parent is sent when a room is selected, and with none it rejects after setting loading; nothing else changes |
| StoreActions.RefreshAfterCreateFolder | src/store.ts:228 | while loading is set the refresh returns at the files guard, leaving the state as it is; otherwise it sets loading and, exactly when a room is selected, asks for the parent without reset or search text, skipping the files already loaded; with no room selected it rejects |
| StoreActions.EndCreateFolder | src/store.ts:229 | loading is cleared and nothing else changes |
| StoreActions.BeginAddLike | src/store.ts:239-245 | the state is unchanged and one like-toggle request for the post is sent |
| StoreActions.FinishAddLike | src/store.ts:246 | in the current state, the first post with the id flips its flag and moves its counter by one in the matching direction; the other posts stay; an absent id changes nothing |
| StoreProperties.InitialStoreIsOpen | src/store.ts:57-69 | the store starts with the page loading, no room selected, every tab empty, and the feed and chat fetches open |
| StoreProperties.InFlightFetchBlocksGuardedFetches | src/store.ts:118-212 | whenever tab_loading is set, feed, payments, chat, files and members fetches send nothing and change nothing; meetings still sends |
| StoreProperties.ExhaustedTabsStayPut | src/store.ts:118-203 | with reached_end set, feed, members and payments fetches are no-ops even on reset, while chat and files (with any search text) still go ahead |
| StoreProperties.FeedRunKeepsSnapshot | src/store.ts:118-127 | an uninterrupted feed fetch leaves the old feed followed by the page, reset or not |
| StoreProperties.MembersRunKeepsSnapshot | src/store.ts:194-203 | an uninterrupted members fetch leaves the old members followed by the page, reset or not |
| StoreProperties.PaymentsRunKeepsSnapshot | src/store.ts:130-143 | an uninterrupted reset payments fetch sends no cursor and leaves the old payments followed by the page |
| StoreProperties.FilesRunKeepsSnapshot | src/store.ts:174-192 | an uninterrupted files fetch asks to skip the old files and leaves them followed by the page; nothing else changes |
| StoreProperties.CreateFolderNeverRefreshes | src/store.ts:214-230 | an uninterrupted createFolder sends its post, its refresh is skipped, and the state ends as before with loading cleared |
| StoreProperties.MeetingsAlwaysRefetch | src/store.ts:205-212 | a second meetings call while one is in flight still sends and empties the list |
| StoreProperties.ReverseOfDescending | src/store.ts:158 | a newest-first page reversed is in ascending id order |
| StoreProperties.OlderPageKeepsAscending | src/store.ts:156-158 | a page older than the cursor, reversed in front of ascending history, keeps it ascending |
| StoreProperties.OlderChatPageStaysAscending | src/store.ts:145-161 | one non-reset chat load answered with an older newest-first page puts it, reversed, in front of the history and keeps the ids ascending |
| StoreProperties.TwoOlderChatPagesStayAscending | src/store.ts:145-161 | two successive non-reset chat loads answered with older newest-first pages give the second page, then the first, then the old history, all in ascending id order |
| StoreProperties.SentMessageKeepsAscending | src/store.ts:163-172 | an uninterrupted send, confirmed with an id above every loaded one, adds exactly that message at the end and keeps the history ascending |
| StoreProperties.EmptyFeedScenario | src/store.ts:118-128 | a reset feed fetch in an empty room answered with nothing leaves the feed empty, reached_end set and loading over |
| StoreProperties.LikeTwiceScenario | src/store.ts:239-247 | post 1 with 5 likes becomes 6 and liked, and a second like gives back the original state |
| FolderPath.InitialPath | src/components/dashboard/FilesTab.tsx:25 | the trail starts as Home alone |
| FolderPath.OnRoomChange | src/components/dashboard/FilesTab.tsx:27-31 | a room change resets the trail to Home alone and asks for a reset fetch of the root |
| FolderPath.OpenFolder | src/components/dashboard/FilesTab.tsx:33-36 | opening a folder adds exactly one crumb with its id and name on top and asks for a reset fetch of that folder |
| FolderPath.ClickCrumb | src/components/dashboard/FilesTab.tsx:38-43 | crumb i cuts the trail to its first i+1 crumbs, and a reset fetch of the crumb now last is asked for |
| FolderPath.LoadMore | src/components/dashboard/FilesTab.tsx:66-69 | load-more asks for a non-reset fetch of the last crumb's folder |
| FolderPath.ClickItem | src/components/dashboard/FilesTab.tsx:76-82 | the trail changes exactly when the item is a FOLDER; any other item is opened at its URL |
| FolderPath.ChangesKeepWellFormed | src/components/dashboard/FilesTab.tsx:25-52 | every change keeps the trail non-empty with Home first |
| FolderPath.ClickHomeIsRoomChangeTrail | src/components/dashboard/FilesTab.tsx:38-43 | clicking Home gives the same trail and fetch as a room change |
| FolderPath.ClickBackUndoesOpen | src/components/dashboard/FilesTab.tsx:33-43 | opening a folder and clicking the crumb before it gives back the earlier trail and refetches its folder |
| FolderPath.OpenTwiceStacks | src/components/dashboard/FilesTab.tsx:33-36 | two folder opens stack two crumbs in order, and load-more then targets the inner one |
| Counterexamples.FeedResetDuplicatesFirstPage | src/store.ts:118-127 | a reset feed fetch over a feed holding one post, answered with that post, shows it twice |
| Counterexamples.OpenFolderKeepsParentListing | src/store.ts:174-191 | opening a folder from a root listing of one file asks to skip one child and shows the root file before the folder's page |
| Counterexamples.PaymentsLoadMoreSendsNothing | src/store.ts:132 | a load-more on a loaded payments list sends nothing and changes nothing |
| Counterexamples.ChatResetKeepsOldHistory | src/store.ts:145-161 | a reset chat fetch over a history of one message asks for messages older than it, and the older page lands in front of that message again |
| Corrected.Base | src/store.ts:121 | the collection a page is added to is empty on a reset and the loaded collection otherwise |
| Corrected.FinishFeed | src/store.ts:119-127 | the feed is exactly the page on reset, and the loaded feed followed by the page otherwise |
| Corrected.FeedResetShowsPage | src/store.ts:119-127 | an uninterrupted reset feed fetch shows exactly the page |
| Corrected.BeginFiles | src/store.ts:174-189 | as the code's files fetch (guard on tab_loading, reject with no room, room, parent, take 50 and search text pinned), but a reset asks to skip nothing |
| Corrected.FinishFiles | src/store.ts:190-191 | the files are exactly the page on reset, and the loaded files followed by the page otherwise |
| Corrected.OpenFolderShowsFolder | src/components/dashboard/FilesTab.tsx:33-36 | opening a folder fetches it from offset zero and lists exactly its page |
| Corrected.RefreshAfterCreateFolder | src/store.ts:228 | the refresh is never skipped: whenever a room is selected it goes out as a reset of the parent from offset zero, take 50, no search text, and with no room selected it rejects; the files are emptied, loading is set and no other field changes |
| Corrected.CreateFolderShowsListing | src/store.ts:214-230 | createFolder ends with the parent's listing as the server returns it and loading released |
| Corrected.BeginPayments | src/store.ts:130-139 | guarded like the feed; without reset the cursor is the last loaded split's id |
| Corrected.FinishPayments | src/store.ts:140-142 | the payments are exactly the page on reset, and the loaded payments followed by the page otherwise |
| Corrected.PaymentsLoadMoreAppends | src/store.ts:130-143 | a load-more asks for splits after the last loaded one and appends them |
| Corrected.BeginChat | src/store.ts:145-157 | guarded like the code's chat fetch, with the same clear, but a reset sends no cursor; otherwise the cursor is the oldest loaded message's id |
| Corrected.FinishChat | src/store.ts:158-160 | the reversed page comes first; on reset nothing follows it, otherwise the loaded history does |
| Corrected.ChatResetShowsPage | src/store.ts:145-161 | a reset chat run asks for the newest messages and shows exactly the page, oldest first |

## Left out

- HTTP, `makeApiCall` and the endpoint table are not part of this model. A response is an arbitrary page. Network and status failures are not modelled.
- The scheduler is not modelled: there are no promises and no real interleaving. Each action is its two halves. The `current` and `snapshot` parameters let any state stand between them.
- The synchronous field setters are not modelled separately. These are `setFeed`, `setPayments`, `setMessages`, `setUserRooms`, `setFiles`, `setMembers`, `setMeetings`, `setUserData`, `setReachedEnd`, `setShowRoomPreview` and `setPageLoading`. Each writes one field, and the actions use them inline.
- `resetState` is not modelled: it writes the state back unchanged.
- `getUserData` and `getUserRoomsData` are not modelled. They set `page_loading` around a fetch of the user and the room list.
- The response shapes are not modelled: some endpoints answer with a bare array and others with a `data` field. Either way the page is a sequence of records.
- Records keep their ids, the attributes the store and the breadcrumb read, and display data (names, a message's text, a member's user). Authors, attached files, timestamps, comment counts and payment amounts are dropped.
- `console.log` output is not modelled.
- The feed's fixed `room_id: 43` is recorded in the request and has no effect on the state.
- Rendering, icons, markdown, dates and `IntersectionObserver` are not modelled. This covers the tab components, `InfiniteScroll` and `LoadingMore`.
- Checkout and payment amounts are not modelled.
- `window.open` is not modelled. A click on a non-folder file is only recorded as opening its URL.
- Routing configuration is not modelled.
- Discarding stale responses and keeping one loading flag per tab are not modelled. The code has neither: one `tab_loading` flag serves every tab, and a late page is always applied.
- The like counter can go below zero in the code, for example when a liked post shows zero likes. StoreState.ToggleLikeKeepsConsistency shows that this cannot happen from a consistent feed.

## Findings

| source | as written | input that shows it | evidently intended | confidence | as-written member | corrected member |
|---|---|---|---|---|---|---|
| src/store.ts:119-125 | A reset feed fetch clears the feed. The page is then added to the feed read before the clear, and the request carries no cursor. | Feed `[p]`, not loading, not at end. Coming back to the feed tab fires a reset fetch, and the server answers `[p]`. The feed becomes `[p, p]`. | A reset shows just the page. | high; not executed | Counterexamples.FeedResetDuplicatesFirstPage | Corrected.FeedResetShowsPage |
| src/store.ts:175-190 | A reset files fetch asks to skip the number of files loaded before the clear. It then adds the page after those files. | Root listing `[a]`, a room selected. Opening folder `f` sends skip 1, and the files become `[a, c]`. | Opening a folder lists it from offset 0, and the files are just its page. | high; not executed | Counterexamples.OpenFolderKeepsParentListing | Corrected.OpenFolderShowsFolder |
| src/store.ts:216-229 | `createFolder` sets `tab_loading` and then calls the files fetch. That fetch's guard returns at once. | Any state with a room selected: the files are unchanged and no refresh is sent. | The parent's listing is fetched afresh after the folder is created. | high; not executed | StoreProperties.CreateFolderNeverRefreshes | Corrected.CreateFolderShowsListing |
| src/store.ts:132 | The guard returns on every call without `reset`, so the cursor branch at line 138 is dead. | Payments `[x]` loaded, not loading, not at end. A load-more call sends nothing. | A load-more requests the splits after the last loaded one and appends them. | medium; not executed | Counterexamples.PaymentsLoadMoreSendsNothing | Corrected.PaymentsLoadMoreAppends |
| src/store.ts:146-158 | A reset chat fetch clears the messages, but the cursor is the oldest message read before the clear. The page then goes in front of that old history. Opening the chat tab always resets (src/components/dashboard/RoomData.tsx:35). | History `[m]`, not loading. Reopening the chat tab sends cursor `m.id`; the server answers `[o]`, and the history becomes `[o, m]`. | A reset asks for the newest messages and shows just that page. | high; not executed | Counterexamples.ChatResetKeepsOldHistory | Corrected.ChatResetShowsPage |

=== FILE: corrected.dfy ===
/** The store's actions as their callers evidently intend them: a reset
    fetch starts from an empty collection rather than the one read before
    the clear, a reset chat fetch sends no cursor, the folder refresh after
    `createFolder` goes out, and payments load further pages by cursor. */
module Corrected {
  import opened Wrappers
  import opened SeqOps
  import opened Entities
  import opened StoreState
  import opened StoreActions
  import opened FolderPath

  /** The collection a page is added to: nothing on a reset, otherwise what
      was loaded. */
  function Base<T>(loaded: seq<T>, reset: bool): (r: seq<T>)
    ensures reset ==> r == []
    ensures !reset ==> r == loaded
  {
    if reset then [] else loaded
  }

  /** `getRoomFeedData` completion, adding the page to the cleared feed on a
      reset. */
  function FinishFeed(cur: AppState, snapshot: AppState, reset: bool, page: seq<FeedItem>): (r: AppState)
    ensures reset ==> r.feed == page
    ensures !reset ==> |r.feed| == |snapshot.feed| + |page| && r.feed[..|snapshot.feed|] == snapshot.feed && r.feed[|snapshot.feed|..] == page
    ensures !r.tabLoading && (r.reachedEnd <==> |page| == 0)
    ensures SameOutside(cur, r, {Feed, TabLoading, ReachedEnd})
  {
    cur.(feed := Base(snapshot.feed, reset) + page).(tabLoading := false).(reachedEnd := |page| == 0)
  }

  /** A reset feed run shows exactly the server's page. */
  lemma FeedResetShowsPage(s: AppState, page: seq<FeedItem>)
    requires !s.tabLoading && !s.reachedEnd
    ensures FinishFeed(StoreActions.BeginFeed(s, true).state, s, true, page).feed == page
  {
  }

  /** `getRoomFilesData` up to the request, with the offset counted after the
      reset. */
  function BeginFiles(s: AppState, parentId: Option<string>, reset: bool, searchText: Option<string>): (b: Begun)
    ensures b.launch.Skipped? <==> s.tabLoading
    ensures b.launch.Skipped? ==> b.state == s
    ensures !b.launch.Skipped? ==> b.state == StoreActions.BeginFiles(s, parentId, reset, searchText).state
    ensures b.launch.NoRoomSelected? <==> !s.tabLoading && s.selectedRoom.None?
    ensures b.launch.Sent? ==>
      && s.selectedRoom.Some?
      && b.launch.request == FilesPage(s.selectedRoom.value.id, parentId,
                                       if reset then 0 else |s.files|, FilesTake, searchText)
  {
    if s.tabLoading then Begun(s, Skipped)
    else
      var loading := MarkLoading(s.(files := Base(s.files, reset)));
      match s.selectedRoom
      case None => Begun(loading, NoRoomSelected)
      case Some(room) => Begun(loading, Sent(FilesPage(room.id, parentId, |Base(s.files, reset)|, FilesTake, searchText)))
  }

  /** `getRoomFilesData` completion, adding the page to the cleared list on a
      reset. */
  function FinishFiles(cur: AppState, snapshot: AppState, reset: bool, page: seq<FileEntry>): (r: AppState)
    ensures reset ==> r.files == page
    ensures !reset ==> |r.files| == |snapshot.files| + |page| && r.files[..|snapshot.files|] == snapshot.files && r.files[|snapshot.files|..] == page
    ensures !r.tabLoading
    ensures SameOutside(cur, r, {Files, TabLoading})
  {
    cur.(files := Base(snapshot.files, reset) + page).(tabLoading := false)
  }

  /** Opening a folder lists exactly that folder's first page, fetched from
      offset zero. */
  lemma OpenFolderShowsFolder(s: AppState, path: seq<Crumb>, folderId: string, folderName: string, page: seq<FileEntry>)
    requires !s.tabLoading && s.selectedRoom.Some?
    ensures var nav := OpenFolder(path, folderId, folderName);
      var b := BeginFiles(s, nav.fetch.parentId, nav.fetch.reset, None);
      && b.launch == Sent(FilesPage(s.selectedRoom.value.id, Some(folderId), 0, FilesTake, None))
      && FinishFiles(b.state, s, nav.fetch.reset, page).files == page
  {
  }

  /** The refresh after `createFolder`, with loading released first and the
      parent listed afresh. */
  function RefreshAfterCreateFolder(cur: AppState, parentId: Option<string>): (b: Begun)
    ensures !b.launch.Skipped?
    ensures cur.selectedRoom.Some? ==> b.launch == Sent(FilesPage(cur.selectedRoom.value.id, parentId, 0, FilesTake, None))
    ensures cur.selectedRoom.None? ==> b.launch.NoRoomSelected?
    ensures b.state.files == []
    ensures b.state.tabLoading && SameOutside(cur, b.state, {TabLoading, Files})
  {
    BeginFiles(cur.(tabLoading := false), parentId, true, None)
  }

  /** Creating a folder ends with the parent's listing as the server now
      returns it, and loading released. */
  lemma CreateFolderShowsListing(s: AppState, parentId: Option<string>, name: string, page: seq<FileEntry>)
    requires s.selectedRoom.Some?
    ensures var b := BeginCreateFolder(s, parentId, name);
      var refresh := RefreshAfterCreateFolder(b.state, parentId);
      var r := EndCreateFolder(FinishFiles(refresh.state, b.state, true, page));
      && refresh.launch == Sent(FilesPage(s.selectedRoom.value.id, parentId, 0, FilesTake, None))
      && r.files == page
      && !r.tabLoading
  {
  }

  /** `getRoomPaymentsData` up to the request, guarded like the feed, with
      the cursor at the last loaded split when not resetting. */
  function BeginPayments(s: AppState, reset: bool): (b: Begun)
    ensures b.launch.Skipped? <==> s.tabLoading || s.reachedEnd
    ensures b.launch.Skipped? ==> b.state == s
    ensures !b.launch.Skipped? ==>
      && b.state.tabLoading
      && b.state.payments == (if reset then [] else s.payments)
      && SameOutside(s, b.state, {TabLoading, Payments})
    ensures b.launch.NoRoomSelected? <==> !b.launch.Skipped? && s.selectedRoom.None?
    ensures b.launch.Sent? ==>
      && s.selectedRoom.Some?
      && b.launch.request == PaymentsPage(s.selectedRoom.value.id,
                                          if reset then None else LastId(s.payments, PaymentId), PaymentsTake)
  {
    if s.tabLoading || s.reachedEnd then Begun(s, Skipped)
    else
      var loading := MarkLoading(s.(payments := Base(s.payments, reset)));
      match s.selectedRoom
      case None => Begun(loading, NoRoomSelected)
      case Some(room) =>
        var cursor := if reset then None else LastId(s.payments, PaymentId);
        Begun(loading, Sent(PaymentsPage(room.id, cursor, PaymentsTake)))
  }

  /** `getRoomPaymentsData` completion, adding the page to the cleared list on
      a reset. */
  function FinishPayments(cur: AppState, snapshot: AppState, reset: bool, page: seq<PaymentSplit>): (r: AppState)
    ensures reset ==> r.payments == page
    ensures !reset ==> |r.payments| == |snapshot.payments| + |page| && r.payments[..|snapshot.payments|] == snapshot.payments
                       && r.payments[|snapshot.payments|..] == page
    ensures !r.tabLoading && (r.reachedEnd <==> |page| == 0)
    ensures SameOutside(cur, r, {Payments, TabLoading, ReachedEnd})
  {
    cur.(payments := Base(snapshot.payments, reset) + page).(tabLoading := false).(reachedEnd := |page| == 0)
  }

  /** Loading more payments asks for the splits after the last one loaded and
      appends them. */
  lemma PaymentsLoadMoreAppends(s: AppState, page: seq<PaymentSplit>)
    requires !s.tabLoading && !s.reachedEnd && s.selectedRoom.Some? && s.payments != []
    ensures BeginPayments(s, false).launch.request.cursor == Some(s.payments[|s.payments| - 1].id)
    ensures FinishPayments(BeginPayments(s, false).state, s, false, page).payments == s.payments + page
  {
  }

  /** `getRoomChatData` up to the request, with the cursor read after the
      reset: a reset asks for the newest messages. */
  function BeginChat(s: AppState, feedId: Option<int>, reset: bool): (b: Begun)
    ensures b.launch.Skipped? <==> s.tabLoading
    ensures b.launch.Skipped? ==> b.state == s
    ensures !b.launch.Skipped? ==> b.state == StoreActions.BeginChat(s, feedId, reset).state
    ensures !b.launch.NoRoomSelected?
    ensures b.launch.Sent? ==>
      b.launch.request == ChatPage(RoomIdOf(s.selectedRoom), feedId,
                                   if reset then None else FirstId(s.messages, MessageId), ChatTake)
  {
    if s.tabLoading then Begun(s, Skipped)
    else
      var base := Base(s.messages, reset);
      Begun(MarkLoading(s.(messages := base, reachedEnd := s.reachedEnd && !reset)),
            Sent(ChatPage(RoomIdOf(s.selectedRoom), feedId, FirstId(base, MessageId), ChatTake)))
  }

  /** `getRoomChatData` completion, putting the reversed page in front of the
      cleared history on a reset. */
  function FinishChat(cur: AppState, snapshot: AppState, reset: bool, page: seq<Message>): (r: AppState)
    ensures |r.messages| == |page| + |Base(snapshot.messages, reset)|
    ensures forall i :: 0 <= i < |page| ==> r.messages[i] == page[|page| - 1 - i]
    ensures reset ==> |r.messages| == |page|
    ensures !reset ==> r.messages[|page|..] == snapshot.messages
    ensures !r.tabLoading && (r.reachedEnd <==> |page| == 0)
    ensures SameOutside(cur, r, {Messages, TabLoading, ReachedEnd})
  {
    cur.(messages := Reverse(page) + Base(snapshot.messages, reset)).(tabLoading := false).(reachedEnd := |page| == 0)
  }

  /** A reset chat run asks for the newest messages and shows exactly the
      server's page, oldest first. */
  lemma ChatResetShowsPage(s: AppState, feedId: Option<int>, page: seq<Message>)
    requires !s.tabLoading
    ensures BeginChat(s, feedId, true).launch == Sent(ChatPage(RoomIdOf(s.selectedRoom), feedId, None, ChatTake))
    ensures FinishChat(BeginChat(s, feedId, true).state, s, true, page).messages == Reverse(page)
  {
  }
}

=== FILE: counterexamples.dfy ===
/** Concrete runs of the store as written that show where it departs from
    what its callers evidently expect. */
module Counterexamples {
  import opened Wrappers
  import opened Entities
  import opened StoreState
  import opened StoreActions
  import opened FolderPath

  /** Coming back to the feed tab asks for a reset fetch. The clear is undone
      when the page lands on the feed read before it, and the request has no
      cursor, so the server's first page is shown twice. */
  lemma FeedResetDuplicatesFirstPage(s: AppState, post: FeedItem)
    requires s.feed == [post] && !s.tabLoading && !s.reachedEnd
    ensures BeginFeed(s, true).launch == Sent(FeedPage(FeedRoomId, FeedTake))
    ensures BeginFeed(s, true).state.feed == []
    ensures FinishFeed(BeginFeed(s, true).state, s, [post]).feed == [post, post]
  {
  }

  /** Opening a folder from the root listing: the request skips as many
      children as the root showed, and the folder's page lands after the
      root's files. */
  lemma OpenFolderKeepsParentListing(s: AppState, room: Room, rootFile: FileEntry, child: FileEntry)
    requires s.selectedRoom == Some(room) && !s.tabLoading && s.files == [rootFile]
    ensures var nav := OpenFolder(InitialPath(), "f", "F");
      var b := BeginFiles(s, nav.fetch.parentId, nav.fetch.reset, None);
      && b.launch == Sent(FilesPage(room.id, Some("f"), 1, FilesTake, None))
      && FinishFiles(b.state, s, [child]).files == [rootFile, child]
  {
  }

  /** Scrolling to the end of a loaded payments list asks for more without
      reset, and nothing is sent: the second page is never requested. */
  lemma PaymentsLoadMoreSendsNothing(s: AppState, split: PaymentSplit)
    requires s.payments == [split] && !s.tabLoading && !s.reachedEnd && s.selectedRoom.Some?
    ensures BeginPayments(s, false) == Begun(s, Skipped)
  {
  }

  /** Opening the chat tab asks for a reset fetch. The request still carries
      the oldest loaded message as cursor, and the page lands in front of the
      history read before the clear, so the old history comes back and the
      newest messages are never asked for. */
  lemma ChatResetKeepsOldHistory(s: AppState, feedId: Option<int>, loaded: Message, older: Message)
    requires s.messages == [loaded] && !s.tabLoading
    ensures BeginChat(s, feedId, true).launch == Sent(ChatPage(RoomIdOf(s.selectedRoom), feedId, Some(loaded.id), ChatTake))
    ensures BeginChat(s, feedId, true).state.messages == []
    ensures FinishChat(BeginChat(s, feedId, true).state, s, [older]).messages == [older, loaded]
  {
  }
}

=== FILE: entities.dfy ===
/** The records the store holds. Each keeps its `id`, the attributes the
    store and the breadcrumb read, and the display names shown with it. */
module Entities {
  import opened Wrappers

  datatype User = User(id: int, name: string)

  datatype Room = Room(id: int, name: string)

  /** A feed post as seen by the current user: its like counter and whether
      this user has liked it. */
  datatype FeedItem = FeedItem(id: int, likes: int, userLiked: bool)

  /** The `file_type` tag of a file entry. */
  datatype FileKind = Folder | Document | Image | OtherKind

  /** A node of a room's file tree; file ids are strings. */
  datatype FileEntry = FileEntry(id: string, name: string, kind: FileKind, url: Option<string>)

  /** One user's share of a payment; only its id, the paging cursor, is kept. */
  datatype PaymentSplit = PaymentSplit(id: int)

  datatype Meeting = Meeting(id: int, name: string)

  datatype Member = Member(id: int, user: User)

  datatype Message = Message(id: int, text: string)

  /** The ids of the records, as functions. */
  function PaymentId(p: PaymentSplit): int { p.id }
  function MemberId(m: Member): int { m.id }
  function MessageId(m: Message): int { m.id }

  /** `room?.id` */
  function RoomIdOf(room: Option<Room>): (r: Option<int>)
    ensures r.Some? <==> room.Some?
    ensures room.Some? ==> r.value == room.value.id
  {
    match room
    case None => None
    case Some(rm) => Some(rm.id)
  }
}

=== FILE: folder_path.dfy ===
/** The folder breadcrumb trail of the files tab: a stack of crumbs that
    starts at Home, grows by one on opening a folder and is cut back on a
    crumb click. Every change goes with the files fetch it asks for. */
module FolderPath {
  import opened Wrappers
  import opened Entities

  /** A crumb names a folder; Home is the root, whose id is null. */
  datatype Crumb = Crumb(id: Option<string>, name: string)

  /** The arguments of the `getRoomFilesData` call a breadcrumb change makes. */
  datatype FolderFetch = FolderFetch(parentId: Option<string>, reset: bool)

  /** A new trail together with the fetch that accompanies it. */
  datatype Nav = Nav(path: seq<Crumb>, fetch: FolderFetch)

  /** What clicking a file card does: a folder is opened; any other file is
      opened at its URL in a new tab, the trail untouched. */
  datatype ItemClick = Navigated(nav: Nav) | OpenedInNewTab(url: Option<string>)

  const Home: Crumb := Crumb(None, "Home")

  /** The trail's first crumb is Home and it is never empty. */
  predicate WellFormed(path: seq<Crumb>)
  {
    |path| >= 1 && path[0] == Home
  }

  /** The trail as the component first renders it. */
  function InitialPath(): (p: seq<Crumb>)
    ensures WellFormed(p) && |p| == 1
  {
    [Home]
  }

  /** On a change of selected room: a reset fetch of the root and a trail of
      Home alone, whatever the trail was. */
  function OnRoomChange(path: seq<Crumb>): (n: Nav)
    ensures n.path == InitialPath()
    ensures n.fetch.parentId.None? && n.fetch.reset
  {
    Nav([Home], FolderFetch(None, true))
  }

  /** `handleFolderClick`: a reset fetch of the folder and one crumb for it
      on top of the trail. */
  function OpenFolder(path: seq<Crumb>, folderId: string, folderName: string): (n: Nav)
    ensures |n.path| == |path| + 1
    ensures n.path[..|path|] == path
    ensures n.path[|path|] == Crumb(Some(folderId), folderName)
    ensures n.fetch == FolderFetch(Some(folderId), true)
  {
    Nav(path + [Crumb(Some(folderId), folderName)], FolderFetch(Some(folderId), true))
  }

  /** `handleBreadcrumbClick`: the trail up to and including crumb `index`
      (`slice(0, index + 1)`, which stops at the trail's end), and a reset
      fetch of the folder that is now last. */
  function ClickCrumb(path: seq<Crumb>, index: nat): (n: Nav)
    requires |path| > 0
    ensures index < |path| ==> n.path == path[..index + 1]
    ensures index >= |path| ==> n.path == path
    ensures |n.path| > 0
    ensures n.fetch == FolderFetch(n.path[|n.path| - 1].id, true)
  {
    var newPath := path[..if index + 1 <= |path| then index + 1 else |path|];
    var target := newPath[|newPath| - 1];
    Nav(newPath, FolderFetch(target.id, true))
  }

  /** The load-more callback: a fetch of the next page of the folder whose
      crumb is last, without reset. */
  function LoadMore(path: seq<Crumb>): (f: FolderFetch)
    requires |path| > 0
    ensures f.parentId == path[|path| - 1].id && !f.reset
  {
    FolderFetch(path[|path| - 1].id, false)
  }

  /** A click on a file card: only a FOLDER opens into the trail. */
  function ClickItem(path: seq<Crumb>, item: FileEntry): (c: ItemClick)
    ensures c.Navigated? <==> item.kind == Folder
    ensures c.Navigated? ==> c.nav == OpenFolder(path, item.id, item.name)
    ensures c.OpenedInNewTab? ==> c.url == item.url
  {
    if item.kind == Folder then Navigated(OpenFolder(path, item.id, item.name))
    else OpenedInNewTab(item.url)
  }

  /** Every change of the trail keeps it well formed: Home stays first and
      the trail never becomes empty. */
  lemma ChangesKeepWellFormed(path: seq<Crumb>, folderId: string, folderName: string, index: nat, item: FileEntry)
    requires WellFormed(path)
    ensures WellFormed(OnRoomChange(path).path)
    ensures WellFormed(OpenFolder(path, folderId, folderName).path)
    ensures WellFormed(ClickCrumb(path, index).path)
    ensures ClickItem(path, item).Navigated? ==> WellFormed(ClickItem(path, item).nav.path)
  {
  }

  /** Clicking Home gives the trail of Home alone and a reset fetch of the root. */
  lemma ClickHomeIsRoomChangeTrail(path: seq<Crumb>)
    requires WellFormed(path)
    ensures ClickCrumb(path, 0) == OnRoomChange(path)
  {
  }

  /** Opening a folder and then clicking the crumb that was last before it
      gives back the earlier trail and refetches that crumb's folder. */
  lemma ClickBackUndoesOpen(path: seq<Crumb>, folderId: string, folderName: string)
    requires |path| > 0
    ensures ClickCrumb(OpenFolder(path, folderId, folderName).path, |path| - 1).path == path
    ensures ClickCrumb(OpenFolder(path, folderId, folderName).path, |path| - 1).fetch
            == FolderFetch(path[|path| - 1].id, true)
  {
  }

  /** Opening folders one after another stacks their crumbs in order, and
      load-more then asks for the innermost one. */
  lemma OpenTwiceStacks(path: seq<Crumb>, id1: string, name1: string, id2: string, name2: string)
    requires WellFormed(path)
    ensures var p := OpenFolder(OpenFolder(path, id1, name1).path, id2, name2).path;
      && p == path + [Crumb(Some(id1), name1), Crumb(Some(id2), name2)]
      && LoadMore(p) == FolderFetch(Some(id2), false)
  {
  }
}

=== FILE: seq_ops.dfy ===
/** The array operations of JavaScript that the store relies on:
    `findIndex`, `find` and the reversal done by `reverse()`, as pure
    functions over sequences. */
module SeqOps {
  import opened Wrappers

  /** `xs.findIndex(matches)`: the first index whose element matches, or
      None where JavaScript answers -1. */
  function FirstIndex<T>(xs: seq<T>, matches: T -> bool): (r: Option<nat>)
    ensures r.Some? ==> r.value < |xs| && matches(xs[r.value])
    ensures r.Some? ==> forall j :: 0 <= j < r.value ==> !matches(xs[j])
    ensures r.None? <==> forall j :: 0 <= j < |xs| ==> !matches(xs[j])
  {
    if xs == [] then None
    else if matches(xs[0]) then Some(0)
    else
      match FirstIndex(xs[1..], matches)
      case None => None
      case Some(k) => Some(k + 1)
  }

  /** `xs.find(matches)`: the first matching element, or None where
      JavaScript answers `undefined`. */
  function Find<T>(xs: seq<T>, matches: T -> bool): (r: Option<T>)
    ensures r.None? <==> forall j :: 0 <= j < |xs| ==> !matches(xs[j])
    ensures r.Some? ==>
      exists i :: 0 <= i < |xs| && xs[i] == r.value && matches(xs[i])
                  && forall j :: 0 <= j < i ==> !matches(xs[j])
  {
    match FirstIndex(xs, matches)
    case None => None
    case Some(i) => Some(xs[i])
  }

  /** `xs.at(0)?.id`: the id of the first element, None when there is none. */
  function FirstId<T>(xs: seq<T>, id: T -> int): (r: Option<int>)
    ensures r.None? <==> xs == []
    ensures r.Some? ==> r.value == id(xs[0])
  {
    if xs == [] then None else Some(id(xs[0]))
  }

  /** `xs.at(-1)?.id`: the id of the last element, None when there is none. */
  function LastId<T>(xs: seq<T>, id: T -> int): (r: Option<int>)
    ensures r.None? <==> xs == []
    ensures r.Some? ==> r.value == id(xs[|xs| - 1])
  {
    if xs == [] then None else Some(id(xs[|xs| - 1]))
  }

  /** The order produced by `xs.reverse()`. */
  function Reverse<T>(xs: seq<T>): (r: seq<T>)
    ensures |r| == |xs|
    ensures forall i :: 0 <= i < |xs| ==> r[i] == xs[|xs| - 1 - i]
  {
    if xs == [] then [] else Reverse(xs[1..]) + [xs[0]]
  }

  /** Reversing twice gives back the original order. */
  lemma ReverseReverse<T>(xs: seq<T>)
    ensures Reverse(Reverse(xs)) == xs
  {
  }
}

=== FILE: store_actions.dfy ===
/** The asynchronous actions of the store. Each one reads the state once
    before it awaits the server and writes after, so it is split in two:
    `BeginX(state, args)` gives the state after the synchronous prefix and
    what was launched, and `FinishX(current, snapshot, page)` applies the
    server's page to the current state, where `snapshot` is the state the
    action read at its start. The network is not modelled: a page is any
    sequence of records. */
module StoreActions {
  import opened Wrappers
  import opened SeqOps
  import opened Entities
  import opened StoreState

  /** Page sizes and the fixed room id of the feed request. */
  const FeedRoomId: int := 43
  const FeedTake: int := 10
  const PaymentsTake: int := 10
  const ChatTake: int := 20
  const FilesTake: int := 50
  const MembersTake: int := 30

  /** The request an action sends, with its parameters. In the chat requests
      `chatRoomId` is `selectedRoom?.id` and `threadId` the optional feed post
      the chat belongs to. */
  datatype Request =
    | FeedPage(roomId: int, take: int)
    | PaymentsPage(roomId: int, cursor: Option<int>, take: int)
    | ChatPage(chatRoomId: Option<int>, threadId: Option<int>, cursor: Option<int>, take: int)
    | PostMessage(text: string, chatRoomId: Option<int>, threadId: Option<int>)
    | FilesPage(roomId: int, parentId: Option<string>, skip: nat, take: int, searchText: Option<string>)
    | MembersPage(roomId: int, cursor: Option<int>, take: int)
    | MeetingsList(roomId: int)
    | CreateFolderPost(name: string, kind: FileKind, roomId: int, parentId: Option<string>)
    | LikeToggle(likedFeedId: int)

  /** What the synchronous prefix of an action ends in: the guard returned
      early, a request went out, or `selectedRoom!.id` was read with no room
      selected, which rejects the action before any request is sent. */
  datatype Launch = Skipped | Sent(request: Request) | NoRoomSelected

  datatype Begun = Begun(state: AppState, launch: Launch)

  /** `set({ tab_loading: true })` */
  function MarkLoading(s: AppState): (r: AppState)
    ensures r.tabLoading
    ensures SameOutside(s, r, {TabLoading})
  {
    s.(tabLoading := true)
  }

  // ---------------------------------------------------------------- feed

  /** `getRoomFeedData`, up to the request. */
  function BeginFeed(s: AppState, reset: bool): (b: Begun)
    ensures b.launch.Skipped? <==> s.tabLoading || s.reachedEnd
    ensures b.launch.Skipped? ==> b.state == s
    ensures !b.launch.NoRoomSelected?
    ensures b.launch.Sent? ==>
      && b.launch.request == FeedPage(FeedRoomId, FeedTake)
      && b.state.tabLoading
      && b.state.feed == (if reset then [] else s.feed)
      && SameOutside(s, b.state, {TabLoading, Feed})
  {
    if s.tabLoading || s.reachedEnd then Begun(s, Skipped)
    else
      var cleared := if reset then s.(feed := []) else s;
      Begun(MarkLoading(cleared), Sent(FeedPage(FeedRoomId, FeedTake)))
  }

  /** `getRoomFeedData`, after the page arrives: the snapshot's feed followed
      by the page, loading over, the end reached exactly when the page is empty. */
  function FinishFeed(cur: AppState, snapshot: AppState, page: seq<FeedItem>): (r: AppState)
    ensures |r.feed| == |snapshot.feed| + |page|
    ensures r.feed[..|snapshot.feed|] == snapshot.feed && r.feed[|snapshot.feed|..] == page
    ensures !r.tabLoading
    ensures r.reachedEnd <==> |page| == 0
    ensures SameOutside(cur, r, {Feed, TabLoading, ReachedEnd})
  {
    cur.(feed := snapshot.feed + page).(tabLoading := false).(reachedEnd := |page| == 0)
  }

  // ------------------------------------------------------------ payments

  /** `getRoomPaymentsData`, up to the request. The guard also returns on
      every call without `reset`, so a call that goes ahead is always a reset
      and asks for the first page. */
  function BeginPayments(s: AppState, reset: bool): (b: Begun)
    ensures b.launch.Skipped? <==> s.tabLoading || s.reachedEnd || !reset
    ensures b.launch.Skipped? ==> b.state == s
    ensures !b.launch.Skipped? ==>
      && b.state.tabLoading
      && b.state.payments == []
      && SameOutside(s, b.state, {TabLoading, Payments})
    ensures b.launch.NoRoomSelected? <==> !b.launch.Skipped? && s.selectedRoom.None?
    ensures b.launch.Sent? ==>
      && b.launch.request.PaymentsPage?
      && s.selectedRoom.Some?
      && b.launch.request.roomId == s.selectedRoom.value.id
      && b.launch.request.cursor.None?
      && b.launch.request.take == PaymentsTake
  {
    if s.tabLoading || s.reachedEnd || !reset then Begun(s, Skipped)
    else
      var cleared := if reset then s.(payments := []) else s;
      var loading := MarkLoading(cleared);
      match s.selectedRoom
      case None => Begun(loading, NoRoomSelected)
      case Some(room) =>
        var cursor := if reset then None else LastId(s.payments, PaymentId);
        Begun(loading, Sent(PaymentsPage(room.id, cursor, PaymentsTake)))
  }

  /** `getRoomPaymentsData`, after the page arrives. */
  function FinishPayments(cur: AppState, snapshot: AppState, page: seq<PaymentSplit>): (r: AppState)
    ensures |r.payments| == |snapshot.payments| + |page|
    ensures r.payments[..|snapshot.payments|] == snapshot.payments
    ensures r.payments[|snapshot.payments|..] == page
    ensures !r.tabLoading
    ensures r.reachedEnd <==> |page| == 0
    ensures SameOutside(cur, r, {Payments, TabLoading, ReachedEnd})
  {
    cur.(payments := snapshot.payments + page).(tabLoading := false).(reachedEnd := |page| == 0)
  }

  // ---------------------------------------------------------------- chat

  /** `getRoomChatData`, up to the request. Only an in-flight fetch stops it;
      a reset clears the messages and the end flag, yet the cursor is still
      the oldest message of the state read before the reset. */
  function BeginChat(s: AppState, feedId: Option<int>, reset: bool): (b: Begun)
    ensures b.launch.Skipped? <==> s.tabLoading
    ensures b.launch.Skipped? ==> b.state == s
    ensures !b.launch.NoRoomSelected?
    ensures b.launch.Sent? ==>
      && b.launch.request == ChatPage(RoomIdOf(s.selectedRoom), feedId, FirstId(s.messages, MessageId), ChatTake)
      && b.state.tabLoading
      && b.state.messages == (if reset then [] else s.messages)
      && b.state.reachedEnd == (if reset then false else s.reachedEnd)
      && SameOutside(s, b.state, {TabLoading, Messages, ReachedEnd})
  {
    if s.tabLoading then Begun(s, Skipped)
    else
      var cleared := if reset then s.(messages := [], reachedEnd := false) else s;
      Begun(MarkLoading(cleared),
            Sent(ChatPage(RoomIdOf(s.selectedRoom), feedId, FirstId(s.messages, MessageId), ChatTake)))
  }

  /** `getRoomChatData`, after the page arrives. The server answers newest
      first; the page is reversed and put in front of the snapshot's messages. */
  function FinishChat(cur: AppState, snapshot: AppState, page: seq<Message>): (r: AppState)
    ensures |r.messages| == |page| + |snapshot.messages|
    ensures forall i :: 0 <= i < |page| ==> r.messages[i] == page[|page| - 1 - i]
    ensures r.messages[|page|..] == snapshot.messages
    ensures !r.tabLoading
    ensures r.reachedEnd <==> |page| == 0
    ensures SameOutside(cur, r, {Messages, TabLoading, ReachedEnd})
  {
    cur.(messages := Reverse(page) + snapshot.messages).(tabLoading := false).(reachedEnd := |page| == 0)
  }

  /** `sendRoomMessage`, up to the request: nothing changes locally. */
  function BeginSendMessage(s: AppState, text: string, feedId: Option<int>): (b: Begun)
    ensures b.state == s
    ensures b.launch == Sent(PostMessage(text, RoomIdOf(s.selectedRoom), feedId))
  {
    Begun(s, Sent(PostMessage(text, RoomIdOf(s.selectedRoom), feedId)))
  }

  /** `sendRoomMessage`, after the server confirms: the snapshot's messages
      with the confirmed one added at the end. */
  function FinishSendMessage(cur: AppState, snapshot: AppState, confirmed: Message): (r: AppState)
    ensures |r.messages| == |snapshot.messages| + 1
    ensures r.messages[..|snapshot.messages|] == snapshot.messages
    ensures r.messages[|snapshot.messages|] == confirmed
    ensures SameOutside(cur, r, {Messages})
  {
    cur.(messages := snapshot.messages + [confirmed])
  }

  // --------------------------------------------------------------- files

  /** `getRoomFilesData`, up to the request. Only an in-flight fetch stops
      it; the offset is the number of files in the state read before the
      reset. */
  function BeginFiles(s: AppState, parentId: Option<string>, reset: bool, searchText: Option<string>): (b: Begun)
    ensures b.launch.Skipped? <==> s.tabLoading
    ensures b.launch.Skipped? ==> b.state == s
    ensures !b.launch.Skipped? ==>
      && b.state.tabLoading
      && b.state.files == (if reset then [] else s.files)
      && SameOutside(s, b.state, {TabLoading, Files})
    ensures b.launch.NoRoomSelected? <==> !s.tabLoading && s.selectedRoom.None?
    ensures b.launch.Sent? ==>
      && s.selectedRoom.Some?
      && b.launch.request == FilesPage(s.selectedRoom.value.id, parentId, |s.files|, FilesTake, searchText)
  {
    if s.tabLoading then Begun(s, Skipped)
    else
      var cleared := if reset then s.(files := []) else s;
      var loading := MarkLoading(cleared);
      match s.selectedRoom
      case None => Begun(loading, NoRoomSelected)
      case Some(room) => Begun(loading, Sent(FilesPage(room.id, parentId, |s.files|, FilesTake, searchText)))
  }

  /** `getRoomFilesData`, after the page arrives: the snapshot's files followed
      by the page; the end flag is not touched. */
  function FinishFiles(cur: AppState, snapshot: AppState, page: seq<FileEntry>): (r: AppState)
    ensures |r.files| == |snapshot.files| + |page|
    ensures r.files[..|snapshot.files|] == snapshot.files && r.files[|snapshot.files|..] == page
    ensures !r.tabLoading
    ensures r.reachedEnd == cur.reachedEnd
    ensures SameOutside(cur, r, {Files, TabLoading})
  {
    cur.(files := snapshot.files + page).(tabLoading := false)
  }

  // ------------------------------------------------------------- members

  /** `getRoomMembersData`, up to the request. */
  function BeginMembers(s: AppState, reset: bool): (b: Begun)
    ensures b.launch.Skipped? <==> s.tabLoading || s.reachedEnd
    ensures b.launch.Skipped? ==> b.state == s
    ensures !b.launch.Skipped? ==>
      && b.state.tabLoading
      && b.state.members == (if reset then [] else s.members)
      && SameOutside(s, b.state, {TabLoading, Members})
    ensures b.launch.NoRoomSelected? <==> !b.launch.Skipped? && s.selectedRoom.None?
    ensures b.launch.Sent? ==>
      && s.selectedRoom.Some?
      && b.launch.request == MembersPage(s.selectedRoom.value.id, LastId(s.members, MemberId), MembersTake)
  {
    if s.tabLoading || s.reachedEnd then Begun(s, Skipped)
    else
      var cleared := if reset then s.(members := []) else s;
      var loading := MarkLoading(cleared);
      match s.selectedRoom
      case None => Begun(loading, NoRoomSelected)
      case Some(room) => Begun(loading, Sent(MembersPage(room.id, LastId(s.members, MemberId), MembersTake)))
  }

  /** `getRoomMembersData`, after the page arrives. */
  function FinishMembers(cur: AppState, snapshot: AppState, page: seq<Member>): (r: AppState)
    ensures |r.members| == |snapshot.members| + |page|
    ensures r.members[..|snapshot.members|] == snapshot.members
    ensures r.members[|snapshot.members|..] == page
    ensures !r.tabLoading
    ensures r.reachedEnd <==> |page| == 0
    ensures SameOutside(cur, r, {Members, TabLoading, ReachedEnd})
  {
    cur.(members := snapshot.members + page).(tabLoading := false).(reachedEnd := |page| == 0)
  }

  // ------------------------------------------------------------ meetings

  /** `getRoomMeetingsData`, up to the request: no guard, the list is
      emptied and loading is set. */
  function BeginMeetings(s: AppState): (b: Begun)
    ensures !b.launch.Skipped?
    ensures b.state.meetings == [] && b.state.tabLoading
    ensures SameOutside(s, b.state, {Meetings, TabLoading})
    ensures b.launch.NoRoomSelected? <==> s.selectedRoom.None?
    ensures b.launch.Sent? ==> s.selectedRoom.Some? && b.launch.request == MeetingsList(s.selectedRoom.value.id)
  {
    var loading := MarkLoading(s.(meetings := []));
    match s.selectedRoom
    case None => Begun(loading, NoRoomSelected)
    case Some(room) => Begun(loading, Sent(MeetingsList(room.id)))
  }

  /** `getRoomMeetingsData`, after the list arrives: it replaces whatever
      was there. */
  function FinishMeetings(cur: AppState, page: seq<Meeting>): (r: AppState)
    ensures r.meetings == page
    ensures !r.tabLoading
    ensures SameOutside(cur, r, {Meetings, TabLoading})
  {
    cur.(meetings := page).(tabLoading := false)
  }

  // ------------------------------------------------------- create folder

  /** `createFolder`, up to the POST: loading is set first. */
  function BeginCreateFolder(s: AppState, parentId: Option<string>, name: string): (b: Begun)
    ensures !b.launch.Skipped?
    ensures b.state.tabLoading
    ensures SameOutside(s, b.state, {TabLoading})
    ensures b.launch.NoRoomSelected? <==> s.selectedRoom.None?
    ensures b.launch.Sent? ==>
      s.selectedRoom.Some? && b.launch.request == CreateFolderPost(name, Folder, s.selectedRoom.value.id, parentId)
  {
    var loading := MarkLoading(s);
    match s.selectedRoom
    case None => Begun(loading, NoRoomSelected)
    case Some(room) => Begun(loading, Sent(CreateFolderPost(name, Folder, room.id, parentId)))
  }

  /** `createFolder`, after the POST: the refresh of the parent folder,
      called without `reset` and without search text. While loading is set,
      as `BeginCreateFolder` left it, the refresh returns at its guard. */
  function RefreshAfterCreateFolder(cur: AppState, parentId: Option<string>): (b: Begun)
    ensures cur.tabLoading ==> b == Begun(cur, Skipped)
    ensures !cur.tabLoading ==> b.state.tabLoading && SameOutside(cur, b.state, {TabLoading})
    ensures !cur.tabLoading ==> (b.launch.Sent? <==> cur.selectedRoom.Some?)
    ensures !cur.tabLoading ==> (b.launch.NoRoomSelected? <==> cur.selectedRoom.None?)
    ensures b.launch.Sent? ==>
      cur.selectedRoom.Some? && b.launch.request == FilesPage(cur.selectedRoom.value.id, parentId, |cur.files|, FilesTake, None)
  {
    BeginFiles(cur, parentId, false, None)
  }

  /** `createFolder`, at its end: loading is cleared. */
  function EndCreateFolder(cur: AppState): (r: AppState)
    ensures !r.tabLoading
    ensures SameOutside(cur, r, {TabLoading})
  {
    cur.(tabLoading := false)
  }

  // ---------------------------------------------------------------- like

  /** `addLikeToFeed`, up to the request: nothing changes locally. */
  function BeginAddLike(s: AppState, feedId: int): (b: Begun)
    ensures b.state == s && b.launch == Sent(LikeToggle(feedId))
  {
    Begun(s, Sent(LikeToggle(feedId)))
  }

  /** `addLikeToFeed`, after the server confirms: the toggle is applied to
      the current state, not to a snapshot. */
  function FinishAddLike(cur: AppState, feedId: int): (r: AppState)
    ensures SameOutside(cur, r, {Feed})
    ensures |r.feed| == |cur.feed|
    ensures (forall j :: 0 <= j < |cur.feed| ==> cur.feed[j].id != feedId) ==> r == cur
    ensures forall i :: IsFirstWithId(cur.feed, i, feedId) ==>
      && r.feed[i].id == feedId
      && r.feed[i].userLiked == !cur.feed[i].userLiked
      && r.feed[i].likes == cur.feed[i].likes + (if r.feed[i].userLiked then 1 else -1)
      && forall j :: 0 <= j < |cur.feed| && j != i ==> r.feed[j] == cur.feed[j]
  {
    ToggleLike(cur, feedId)
  }
}

=== FILE: store_properties.dfy ===
/** Properties of the store that span several calls: the shared loading
    flag, exhaustion, the order of chat history, and the runs of an action
    with nothing in between its two halves. */
module StoreProperties {
  import opened Wrappers
  import opened SeqOps
  import opened Entities
  import opened StoreState
  import opened StoreActions

  /** One `tab_loading` flag guards every paginated fetch: once any of them is
      in flight, a second call of any guarded fetch sends nothing and changes
      nothing; meetings alone ignores the flag. */
  lemma InFlightFetchBlocksGuardedFetches(s: AppState, reset: bool, parentId: Option<string>,
                                          feedId: Option<int>, searchText: Option<string>)
    requires s.tabLoading
    ensures BeginFeed(s, reset) == Begun(s, Skipped)
    ensures BeginPayments(s, reset) == Begun(s, Skipped)
    ensures BeginChat(s, feedId, reset) == Begun(s, Skipped)
    ensures BeginFiles(s, parentId, reset, searchText) == Begun(s, Skipped)
    ensures BeginMembers(s, reset) == Begun(s, Skipped)
    ensures !BeginMeetings(s).launch.Skipped?
  {
  }

  /** The store starts with the page loading, nothing selected, nothing
      loaded, and every guarded fetch open. */
  lemma InitialStoreIsOpen(reset: bool, feedId: Option<int>)
    ensures Initial.pageLoading && Initial.selectedRoom.None? && TabsEmpty(Initial)
    ensures !Initial.tabLoading && !Initial.reachedEnd
    ensures BeginFeed(Initial, reset).launch.Sent?
    ensures BeginChat(Initial, feedId, reset).launch.Sent?
  {
  }

  /** Once the end is reached, feed, members and payments fetches are no-ops,
      reset or not; chat and files do not look at the end flag. */
  lemma ExhaustedTabsStayPut(s: AppState, reset: bool, parentId: Option<string>, feedId: Option<int>, searchText: Option<string>)
    requires s.reachedEnd && !s.tabLoading
    ensures BeginFeed(s, reset) == Begun(s, Skipped)
    ensures BeginMembers(s, reset) == Begun(s, Skipped)
    ensures BeginPayments(s, reset) == Begun(s, Skipped)
    ensures BeginChat(s, feedId, reset).launch.Sent?
    ensures !BeginFiles(s, parentId, reset, searchText).launch.Skipped?
  {
  }

  /** A feed fetch run with nothing in between its halves: the feed read at
      the start plus the page, even when `reset` asked for a clear. */
  lemma FeedRunKeepsSnapshot(s: AppState, reset: bool, page: seq<FeedItem>)
    requires !s.tabLoading && !s.reachedEnd
    ensures var r := FinishFeed(BeginFeed(s, reset).state, s, page);
      && r.feed == s.feed + page
      && !r.tabLoading
      && (r.reachedEnd <==> page == [])
      && SameOutside(s, r, {Feed, ReachedEnd})
  {
  }

  /** The same for members. */
  lemma MembersRunKeepsSnapshot(s: AppState, reset: bool, page: seq<Member>)
    requires !s.tabLoading && !s.reachedEnd && s.selectedRoom.Some?
    ensures var r := FinishMembers(BeginMembers(s, reset).state, s, page);
      && r.members == s.members + page
      && !r.tabLoading
      && (r.reachedEnd <==> page == [])
      && SameOutside(s, r, {Members, ReachedEnd})
  {
  }

  /** Payments: a run that goes ahead starts from the payments read at the
      start, which the guard lets through only on a reset. */
  lemma PaymentsRunKeepsSnapshot(s: AppState, page: seq<PaymentSplit>)
    requires !s.tabLoading && !s.reachedEnd && s.selectedRoom.Some?
    ensures BeginPayments(s, true).launch == Sent(PaymentsPage(s.selectedRoom.value.id, None, PaymentsTake))
    ensures var r := FinishPayments(BeginPayments(s, true).state, s, page);
      && r.payments == s.payments + page
      && !r.tabLoading
      && (r.reachedEnd <==> page == [])
  {
  }

  /** A files fetch run: offset by the files read at the start, which it then
      extends by the page; the end flag keeps its value. */
  lemma FilesRunKeepsSnapshot(s: AppState, parentId: Option<string>, reset: bool,
                              searchText: Option<string>, page: seq<FileEntry>)
    requires !s.tabLoading && s.selectedRoom.Some?
    ensures BeginFiles(s, parentId, reset, searchText).launch.request.skip == |s.files|
    ensures var r := FinishFiles(BeginFiles(s, parentId, reset, searchText).state, s, page);
      && r.files == s.files + page
      && !r.tabLoading
      && SameOutside(s, r, {Files})
  {
  }

  /** `createFolder` run with nothing in between: its own loading flag makes
      the refresh return at the guard, so the file list is what it was and
      only the loading flag ends cleared. */
  lemma CreateFolderNeverRefreshes(s: AppState, parentId: Option<string>, name: string)
    requires s.selectedRoom.Some?
    ensures var b := BeginCreateFolder(s, parentId, name);
      var refresh := RefreshAfterCreateFolder(b.state, parentId);
      && b.launch.Sent?
      && refresh.launch.Skipped?
      && EndCreateFolder(refresh.state) == s.(tabLoading := false)
  {
  }

  /** Meetings has no guard: a second call while the first is in flight
      empties the list and sends another request. */
  lemma MeetingsAlwaysRefetch(s: AppState)
    requires s.selectedRoom.Some?
    ensures var b := BeginMeetings(s);
      b.launch.Sent? && BeginMeetings(b.state).launch.Sent? && BeginMeetings(b.state).state.meetings == []
  {
  }

  // --------------------------------------------------------- chat history

  /** Message ids strictly increase along the sequence. */
  predicate Ascending(ms: seq<Message>)
  {
    forall i, j :: 0 <= i < j < |ms| ==> ms[i].id < ms[j].id
  }

  /** Message ids strictly decrease along the sequence, as the server pages
      them newest first. */
  predicate Descending(ms: seq<Message>)
  {
    forall i, j :: 0 <= i < j < |ms| ==> ms[i].id > ms[j].id
  }

  /** Every message of the page is older than the cursor, when there is one. */
  predicate OlderThanCursor(page: seq<Message>, cursor: Option<int>)
  {
    cursor.Some? ==> forall k :: 0 <= k < |page| ==> page[k].id < cursor.value
  }

  /** A newest-first page reversed is oldest-first. */
  lemma ReverseOfDescending(page: seq<Message>)
    requires Descending(page)
    ensures Ascending(Reverse(page))
  {
  }

  /** Putting an older page in front of ascending history keeps it ascending. */
  lemma OlderPageKeepsAscending(history: seq<Message>, page: seq<Message>)
    requires Ascending(history) && Descending(page)
    requires OlderThanCursor(page, FirstId(history, MessageId))
    ensures Ascending(Reverse(page) + history)
  {
  }

  /** One older-history load with nothing in between: the page, reversed,
      goes in front of the history, which stays ascending. */
  lemma OlderChatPageStaysAscending(s: AppState, feedId: Option<int>, page: seq<Message>)
    requires !s.tabLoading && Ascending(s.messages) && Descending(page)
    requires OlderThanCursor(page, BeginChat(s, feedId, false).launch.request.cursor)
    ensures var r := FinishChat(BeginChat(s, feedId, false).state, s, page);
      && !r.tabLoading
      && r.messages == Reverse(page) + s.messages
      && Ascending(r.messages)
  {
    OlderPageKeepsAscending(s.messages, page);
  }

  /** Two successive older-history loads with nothing in between: when the
      server answers each cursor with older messages, newest first, the
      history stays in ascending id order, the second page first. */
  lemma TwoOlderChatPagesStayAscending(s: AppState, feedId: Option<int>, page1: seq<Message>, page2: seq<Message>)
    requires !s.tabLoading && Ascending(s.messages)
    requires Descending(page1) && Descending(page2)
    requires OlderThanCursor(page1, BeginChat(s, feedId, false).launch.request.cursor)
    requires var s1 := FinishChat(BeginChat(s, feedId, false).state, s, page1);
      OlderThanCursor(page2, BeginChat(s1, feedId, false).launch.request.cursor)
    ensures var s1 := FinishChat(BeginChat(s, feedId, false).state, s, page1);
      var s2 := FinishChat(BeginChat(s1, feedId, false).state, s1, page2);
      && s2.messages == Reverse(page2) + (Reverse(page1) + s.messages)
      && Ascending(s2.messages)
  {
    OlderChatPageStaysAscending(s, feedId, page1);
    var s1 := FinishChat(BeginChat(s, feedId, false).state, s, page1);
    OlderChatPageStaysAscending(s1, feedId, page2);
  }

  /** A sent message confirmed with an id above every loaded one, with
      nothing in between, ends the history and keeps it ascending. */
  lemma SentMessageKeepsAscending(s: AppState, text: string, feedId: Option<int>, confirmed: Message)
    requires Ascending(s.messages)
    requires forall k :: 0 <= k < |s.messages| ==> s.messages[k].id < confirmed.id
    ensures var r := FinishSendMessage(BeginSendMessage(s, text, feedId).state, s, confirmed);
      r.messages == s.messages + [confirmed] && Ascending(r.messages)
  {
  }

  // -------------------------------------------------------------- scenarios

  /** A room with no feed, reset fetch, empty answer: nothing loaded, the end
      reached, loading over. */
  lemma EmptyFeedScenario(s: AppState)
    requires s.feed == [] && !s.tabLoading && !s.reachedEnd
    ensures var b := BeginFeed(s, true);
      var r := FinishFeed(b.state, s, []);
      b.launch.Sent? && r.feed == [] && r.reachedEnd && !r.tabLoading
  {
  }

  /** Liking post 1 with five likes gives six and the flag; liking it again
      gives back five and no flag. */
  lemma LikeTwiceScenario(s: AppState)
    requires s.feed == [FeedItem(1, 5, false)]
    ensures FinishAddLike(s, 1).feed == [FeedItem(1, 6, true)]
    ensures FinishAddLike(FinishAddLike(s, 1), 1) == s
  {
    ToggleLikeTwice(s, 1);
  }
}

=== FILE: store_state.dfy ===
/** The state record of the room dashboard store and its synchronous
    setters: room selection and the like toggle. */
module StoreState {
  import opened Wrappers
  import opened SeqOps
  import opened Entities

  /** One record of dashboard state. `selectedRoom` and `showRoomPreview` are
      `undefined`/`null` as None; the user starts out as None too. */
  datatype AppState = AppState(
    tabLoading: bool,
    pageLoading: bool,
    feed: seq<FeedItem>,
    userRooms: seq<Room>,
    files: seq<FileEntry>,
    payments: seq<PaymentSplit>,
    reachedEnd: bool,
    meetings: seq<Meeting>,
    members: seq<Member>,
    selectedRoom: Option<Room>,
    user: Option<User>,
    showRoomPreview: Option<int>,
    messages: seq<Message>)

  /** The store as created: nothing loaded, the page still loading. */
  const Initial: AppState :=
    AppState(false, true, [], [], [], [], false, [], [], None, None, None, [])

  /** The fields of AppState, for stating what an action leaves alone. */
  datatype Field =
    | TabLoading | PageLoading | Feed | UserRooms | Files | Payments | ReachedEnd
    | Meetings | Members | SelectedRoom | CurrentUser | ShowRoomPreview | Messages

  /** `a` and `b` agree on every field not in `touched`. */
  predicate SameOutside(a: AppState, b: AppState, touched: set<Field>)
  {
    && (TabLoading !in touched ==> a.tabLoading == b.tabLoading)
    && (PageLoading !in touched ==> a.pageLoading == b.pageLoading)
    && (Feed !in touched ==> a.feed == b.feed)
    && (UserRooms !in touched ==> a.userRooms == b.userRooms)
    && (Files !in touched ==> a.files == b.files)
    && (Payments !in touched ==> a.payments == b.payments)
    && (ReachedEnd !in touched ==> a.reachedEnd == b.reachedEnd)
    && (Meetings !in touched ==> a.meetings == b.meetings)
    && (Members !in touched ==> a.members == b.members)
    && (SelectedRoom !in touched ==> a.selectedRoom == b.selectedRoom)
    && (CurrentUser !in touched ==> a.user == b.user)
    && (ShowRoomPreview !in touched ==> a.showRoomPreview == b.showRoomPreview)
    && (Messages !in touched ==> a.messages == b.messages)
  }

  /** All six per-tab collections are empty. */
  predicate TabsEmpty(s: AppState)
  {
    s.feed == [] && s.payments == [] && s.files == [] && s.members == []
    && s.meetings == [] && s.messages == []
  }

  /** Some room the user belongs to has this id. */
  predicate IsUserRoom(rooms: seq<Room>, roomId: int)
  {
    exists i :: 0 <= i < |rooms| && rooms[i].id == roomId
  }

  /** `setSelectedRoomId`: select the user's room with this id (the first one
      in the list, or none) and drop everything loaded for the previous room. */
  function SelectRoom(s: AppState, roomId: int): (r: AppState)
    ensures TabsEmpty(r) && !r.reachedEnd
    ensures r.selectedRoom.None? <==> !IsUserRoom(s.userRooms, roomId)
    ensures r.selectedRoom.Some? ==>
      exists i :: 0 <= i < |s.userRooms| && s.userRooms[i] == r.selectedRoom.value
                  && r.selectedRoom.value.id == roomId
                  && forall j :: 0 <= j < i ==> s.userRooms[j].id != roomId
    ensures SameOutside(s, r, {Feed, Payments, Files, Members, Meetings, Messages, ReachedEnd, SelectedRoom})
  {
    s.(selectedRoom := Find(s.userRooms, (room: Room) => room.id == roomId),
       feed := [], payments := [], files := [], members := [], meetings := [],
       messages := [], reachedEnd := false)
  }

  /** `loadRoomData`: select the room; when the user is not in it and the page
      has finished loading, remember it as the room to preview. The room list
      and `page_loading` are read before the selection. */
  function LoadRoomData(s: AppState, roomId: int): (r: AppState)
    ensures TabsEmpty(r) && !r.reachedEnd
    ensures r.selectedRoom.Some? <==> IsUserRoom(s.userRooms, roomId)
    ensures r.selectedRoom.Some? ==>
      exists i :: 0 <= i < |s.userRooms| && s.userRooms[i] == r.selectedRoom.value
                  && r.selectedRoom.value.id == roomId
                  && forall j :: 0 <= j < i ==> s.userRooms[j].id != roomId
    ensures !IsUserRoom(s.userRooms, roomId) && !s.pageLoading ==> r.showRoomPreview == Some(roomId)
    ensures IsUserRoom(s.userRooms, roomId) || s.pageLoading ==> r.showRoomPreview == s.showRoomPreview
    ensures SameOutside(s, r, {Feed, Payments, Files, Members, Meetings, Messages, ReachedEnd,
                               SelectedRoom, ShowRoomPreview})
  {
    var userRooms := s.userRooms;
    var pageLoading := s.pageLoading;
    var selected := SelectRoom(s, roomId);
    var isRoomThere := Find(userRooms, (room: Room) => room.id == roomId);
    if isRoomThere.None? && !pageLoading then selected.(showRoomPreview := Some(roomId))
    else selected
  }

  /** Index `i` holds the first feed item with this id. */
  predicate IsFirstWithId(feed: seq<FeedItem>, i: int, feedId: int)
  {
    0 <= i < |feed| && feed[i].id == feedId && forall j :: 0 <= j < i ==> feed[j].id != feedId
  }

  /** `state.feed.findIndex(feed => feed.id === feedId)` */
  function FeedIndex(feed: seq<FeedItem>, feedId: int): (r: Option<nat>)
    ensures r.Some? ==> IsFirstWithId(feed, r.value, feedId)
    ensures r.None? <==> forall j :: 0 <= j < |feed| ==> feed[j].id != feedId
  {
    FirstIndex(feed, (f: FeedItem) => f.id == feedId)
  }

  /** The item after one like toggle: the flag flips, and the counter gains
      one when the item becomes liked and loses one when it becomes unliked. */
  function Toggled(item: FeedItem): (t: FeedItem)
    ensures t.id == item.id
    ensures t.userLiked == !item.userLiked
    ensures t.likes == item.likes + (if t.userLiked then 1 else -1)
  {
    item.(userLiked := !item.userLiked, likes := item.likes + (if item.userLiked then -1 else 1))
  }

  /** `setIncFeedLikes`: toggle the like of the first feed item with this id;
      an absent id leaves the state as it is. */
  function ToggleLike(s: AppState, feedId: int): (r: AppState)
    ensures SameOutside(s, r, {Feed})
    ensures |r.feed| == |s.feed|
    ensures (forall j :: 0 <= j < |s.feed| ==> s.feed[j].id != feedId) ==> r == s
    ensures forall i :: IsFirstWithId(s.feed, i, feedId) ==>
      r.feed[i] == Toggled(s.feed[i])
      && forall j :: 0 <= j < |s.feed| && j != i ==> r.feed[j] == s.feed[j]
  {
    match FeedIndex(s.feed, feedId)
    case None => s
    case Some(i) => s.(feed := s.feed[i := Toggled(s.feed[i])])
  }

  /** The like counter is never negative and counts the current user's like. */
  predicate LikeConsistent(item: FeedItem)
  {
    item.likes >= 0 && (item.userLiked ==> item.likes >= 1)
  }

  /** Toggling twice gives back the original state. */
  lemma ToggleLikeTwice(s: AppState, feedId: int)
    ensures ToggleLike(ToggleLike(s, feedId), feedId) == s
  {
  }

  /** A toggle keeps every item's counter consistent with its flag. */
  lemma ToggleLikeKeepsConsistency(s: AppState, feedId: int)
    requires forall j :: 0 <= j < |s.feed| ==> LikeConsistent(s.feed[j])
    ensures forall j :: 0 <= j < |ToggleLike(s, feedId).feed| ==> LikeConsistent(ToggleLike(s, feedId).feed[j])
  {
  }
}

=== FILE: wrappers.dfy ===
/** The optional value used for JavaScript's `undefined` / `null` results. */
module Wrappers {

  datatype Option<+T> = None | Some(value: T)
}
